=== FILE: README.md ===
# A Dafny model of the AI Cup bot's per-tick strategy

The bot plays a 2D platform shooter. Each tick the game server hands the bot
a snapshot: the units, the loot boxes lying on the map, and the tile grid.
For each of its units the bot answers with one `UnitAction`. That action holds:

- a horizontal velocity;
- jump and jump-down flags;
- an aim vector;
- shoot, reload, weapon-swap and mine-plant flags.

This project models that decision routine, `MyStrategy::getAction`, with its
helpers `distanceSqr` and the same-column rule of `checkforobstacles`. It
then proves what the routine promises.

Each module covers one part of the routine:

- `Geometry` covers squared distance.
- `World` covers the snapshot and the command.
- `Nearest` is one generic "first strictly nearest" scan. The three
  scanning loops of the source (lines 27, 63 and 74) keep five trackers
  between them, and each tracker is an instance of this scan.
- `Scans` holds the per-category loot scans, the enemy scan and the
  composite "nearest weapon".
- `LineOfSight` holds the obstruction test.
- `Strategy` holds the target ladder and the command.
- `Scenarios` holds concrete snapshots worked through the model.

The source reads the nearest pistol, launcher, rifle and enemy without
checking that they exist. So there are two versions of the routine:

- `Strategy.GetAction` is the routine as written. Its preconditions are the
  facts it takes for granted.
- `Strategy.GetActionSafe` skips absent entities, so it is defined on every
  snapshot whose tile probe beside the unit and whose line-of-sight samples
  lie in the grid.
- `Strategy.SafeAgreesWithSource` proves that the two agree wherever the
  source is defined.

Coordinates are `real`. A `size_t(...)` cast of a coordinate becomes `.Floor`,
under the condition that the point lies in the grid.

An adjacent enemy clears `reload` at line 131. Lines 141-145 set it again
when the unit is armed and is either not shooting or out of ammunition, so
the adjacency rule does not have the last word on reloading. The body of
`Strategy.Assemble` follows the source's order of flag updates at lines
114-145, and its contract gives the closed form of that sequence.

## Model

| member | source | states |
|---|---|---|
| Geometry.DistanceSqr | aicup-cpp/MyStrategy.cpp:6-8 | the squared distance between two points is never negative |
| Geometry.DistanceSqrZero | aicup-cpp/MyStrategy.cpp:6-8 | the squared distance is zero exactly when the two points coincide |
| Geometry.DistanceSqrSymmetric | aicup-cpp/MyStrategy.cpp:6-8 | the squared distance does not depend on argument order, so "nearer to the unit" is well defined |
| Geometry.LengthSqrPositive | aicup-cpp/MyStrategy.cpp:7 | a non-zero difference vector has a strictly positive squared length |
| Nearest.Nearest | aicup-cpp/MyStrategy.cpp:62-70 | the nearest-so-far scan returns nothing exactly when no element is eligible; otherwise it returns an eligible element that no eligible element beats and that every earlier eligible element is strictly farther than (the first of the tied nearest) |
| Nearest.FirstNearestUnique | aicup-cpp/MyStrategy.cpp:65-67 | the strict `<` comparison selects at most one index: two "first nearest" indices are equal |
| Nearest.NearestCharacterized | aicup-cpp/MyStrategy.cpp:62-70 | the scan returns index i if and only if i is the first nearest eligible element |
| Scans.NearestBox | aicup-cpp/MyStrategy.cpp:27-81 | for each of pistol, launcher and rifle (any other weapon type) in the loot loop at lines 27-48, and for health packs in the loop at lines 73-81, the scan finds no box exactly when the category is absent; otherwise it picks a box of that category that no other box of the category beats, and ties go to the earliest box |
| Scans.NearestEnemy | aicup-cpp/MyStrategy.cpp:62-70 | no enemy is found exactly when every unit belongs to the caller's player; otherwise it finds a unit of another player that is no farther than any other such unit, and ties go to the earliest |
| Scans.NearestWeapon | aicup-cpp/MyStrategy.cpp:51-59 | the composite weapon is one of the three category winners and is at minimum distance among them; on ties the rifle beats the launcher, which beats the pistol |
| Scans.OnlyBoxOfCategory | aicup-cpp/MyStrategy.cpp:27-48 | when a category holds a single box, the scan picks that box wherever the unit stands |
| Scans.NearestWeaponSafe | aicup-cpp/MyStrategy.cpp:23-59 | the checked composite finds no box exactly when there is no weapon box; otherwise it finds a weapon box at minimum distance over all weapon boxes |
| Scans.RiflePreferred | aicup-cpp/MyStrategy.cpp:51-55 | when the nearest rifle is at least as close as every weapon box, the checked composite picks that rifle, as the source starts from the rifle and switches only to a strictly closer box |
| Scans.NearestWeaponSafeAgrees | aicup-cpp/MyStrategy.cpp:51-59 | when all three categories are present, the checked composite equals the source's composite, which is therefore the nearest of all weapon boxes |
| LineOfSight.WalkClear | aicup-cpp/MyStrategy.cpp:172-194 | the walk reports clear exactly when every sample lies in the grid on a tile that is neither wall nor platform; when it is not clear, there is a first blocking sample and all earlier samples are clear |
| LineOfSight.ClearShot | aicup-cpp/MyStrategy.cpp:159-194 | two points in the same column always have a clear shot; otherwise the shot is clear exactly when no sample of the walk towards the target is obstructed |
| LineOfSight.StepsIsFloor | aicup-cpp/MyStrategy.cpp:170-193 | the loop that subtracts 1 while the distance is at least 1 runs exactly floor(distance) times |
| Strategy.ChooseTarget | aicup-cpp/MyStrategy.cpp:83-105 | a wounded unit (health below 70) with a health pack available heads for it and never swaps; otherwise it swaps exactly when it is armed, not with a rifle, and a rifle box exists, and it then heads for that rifle; an unarmed unit heads for the nearest weapon; anyone else heads for the enemy, or stays on the fallback |
| Strategy.Assemble | aicup-cpp/MyStrategy.cpp:109-156 | the source's sequence of flag updates (the two wall probes setting jump and reload, the adjacency rule clearing reload and planting a mine, the ammunition rule setting reload again) ends in this closed form: velocity is the horizontal offset to the target; the unit jumps iff the target is higher or the tile beside it towards the target is a wall (platforms do not count, and a target straight above or below probes nothing); jump-down is the negation of jump; aim points at the enemy, or is zero when there is none; a mine is planted iff the enemy is adjacent on the same row; the unit reloads iff a wall is ahead and no mine is planted, or it is armed and either not shooting or out of ammunition |
| Strategy.SourceWeapon | aicup-cpp/MyStrategy.cpp:51-59 | the source's composite nearest weapon is a weapon box of the snapshot, and no weapon box of any kind is closer to the unit |
| Strategy.GetAction | aicup-cpp/MyStrategy.cpp:12-157 | on a snapshot that has all three weapon kinds and an enemy: health override, swap-to-rifle, unarmed-to-weapon and rifle-holder-to-enemy targeting; aim at the enemy; shoot iff line of sight is clear, always when in the same column; mine iff the enemy is adjacent; reload iff a wall is ahead and there is no mine, or the unit is armed and either not shooting or out of ammunition |
| Strategy.SafeEnemy | aicup-cpp/MyStrategy.cpp:62-70 | no enemy position is returned exactly when every unit belongs to the caller's player; otherwise the position returned is that of a unit of another player, and no unit of another player is closer |
| Strategy.GetActionSafe | aicup-cpp/MyStrategy.cpp:12-157 | on every snapshot whose tile probe beside the unit and whose line-of-sight samples lie in the grid: velocity and jump follow the chosen target (jump iff it is higher or a wall is ahead), and jump-down is the negation of jump; a wounded unit with a health pack available heads for it and does not swap; otherwise an armed unit without a rifle swaps exactly when a rifle box exists, and then heads for that rifle; an unarmed unit heads for the nearest weapon box of any kind, when there is one; anyone else heads for the nearest enemy, when there is one; with no enemy the unit aims at zero, holds fire and plants no mine; with an enemy it aims at the enemy, shoots iff line of sight is clear, and mines iff the enemy is adjacent; it reloads iff a wall is ahead and no mine is planted, or it is armed and either not shooting or out of ammunition; with nothing to pursue the unit neither moves nor jumps |
| Strategy.SafeAgreesWithSource | aicup-cpp/MyStrategy.cpp:12-157 | wherever the source routine is defined, the checked routine picks the same target and returns the same command |
| Scenarios.RifleEngagesEnemy | aicup-cpp/MyStrategy.cpp:51-145 | a rifle holder at (5,5), with one enemy at (10,5), no loot and a clear grid, lies outside the source's domain (line 52 reads the missing launcher); the checked routine moves +5, aims (5,0), does not jump, shoots, and reloads only when its magazine is empty |
| Scenarios.LonePistolWithoutEnemy | aicup-cpp/MyStrategy.cpp:51-138 | an unarmed unit with only a pistol box at (6,5) and no enemy lies outside the source's domain; the checked routine heads for the pistol without swapping, aims at zero, holds fire and plants no mine |
| Scenarios.CrowdedTarget | aicup-cpp/MyStrategy.cpp:83-105 | a wounded pistol holder in a snapshot with every weapon kind, an enemy and a health pack meets the swap-to-rifle condition, yet targets the health pack and does not swap, because the health override cancels the swap |
| Scenarios.AdjacentEnemyPlantsMine | aicup-cpp/MyStrategy.cpp:114-145 | with an adjacent enemy in the same row, a wall ahead and a loaded pistol, the unit jumps, plants a mine, shoots, and does not reload |
| Scenarios.TeammatesOnly | aicup-cpp/MyStrategy.cpp:62-145 | with every weapon kind present but only a teammate nearby, the source is undefined; the checked routine heads for the rifle and swaps, aims at zero, holds fire, plants nothing and reloads |

## Left out

- The stepping loop of `checkforobstacles` (lines 166-193) is not modelled. It walks with a floating-point slope, `sqrt` and `abs`, and there is no sound way to state IEEE-754 `double` rounding here. Its sample points are an input, `walk`, to `LineOfSight.ClearShot`. Its iteration count is modelled separately by `LineOfSight.Steps`.
- LineOfSight.ClearShot: weaker than the source, because it does not compute which points the walk samples. It states the same-column rule and the obstruction test over any given samples. For the same reason, symmetry of the obstruction test in its endpoints is not stated.
- A tile lookup at a coordinate in (-1, 0) is left out. The `size_t(...)` cast would truncate it to index 0, for example at line 122 for a unit with 0 <= x < 1 heading left. `LineOfSight.InGrid` asks for non-negative coordinates, so the model does not define the command on such inputs.
- Lines 29 and 35 read the weapon type through `lootBox.Weapon.item->weaponType`, and no such member is visible. The model reads it as the weapon type of the item that line 28 casts to a weapon.
- Floating-point arithmetic throughout is modelled with exact reals. That includes the `<` comparisons of squared distances and the `== 1` adjacency test.
- `abs` at line 129 is read as the `double` overload. If the integer `abs` were picked instead, a fractional offset would be truncated before the comparison.
- The debug log call at line 107 is a side effect with no bearing on the command, so it is left out.
- The server connection, message serialisation and the runner loop are left out. The model starts from a decoded snapshot.
- Unit and weapon fields the routine never reads are left out. That covers size, jump state, fire timers, spread, mines carried and the like.

## Findings

| source | as written | input that shows it | evidently intended | confidence | as-written member | corrected member |
|---|---|---|---|---|---|---|
| aicup-cpp/MyStrategy.cpp:51-59 | compares and dereferences the nearest launcher, pistol and rifle boxes without checking for null, and line 84 reads the composite's position | a snapshot whose only loot is one pistol box (no launcher): the launcher pointer at line 52 is null | take the nearest of the weapon kinds that are present, and leave the target alone when none is | not executed | Strategy.GetAction (its requires), Scans.NearestWeapon, Scenarios.LonePistolWithoutEnemy | Scans.NearestWeaponSafe, Strategy.GetActionSafe |
| aicup-cpp/MyStrategy.cpp:129-138 | dereferences the nearest enemy for the adjacency test and the line-of-sight call without checking for null | a snapshot whose other units all belong to the caller's player: every weapon kind present, one teammate | with no enemy, plant no mine and do not shoot (the aim block at line 110 already checks for null) | not executed | Strategy.GetAction (its requires), Scenarios.TeammatesOnly | Strategy.GetActionSafe |

=== FILE: geometry.dfy ===
/** Plane coordinates and the squared-distance metric every scan compares by. */
module Geometry {

  /** A point or a vector of the arena, in tile units. Doubles become reals. */
  datatype Vec2 = Vec2(x: real, y: real)

  const Origin := Vec2(0.0, 0.0)

  /** The vector from `b` to `a`, componentwise. */
  function Minus(a: Vec2, b: Vec2): Vec2
  {
    Vec2(a.x - b.x, a.y - b.y)
  }

  /** Squared Euclidean length of a vector. */
  function LengthSqr(v: Vec2): real
  {
    v.x * v.x + v.y * v.y
  }

  /** Squared Euclidean distance: `(a.x - b.x)^2 + (a.y - b.y)^2`. Comparing it
      orders points exactly as the true distance would, without a square root. */
  function DistanceSqr(a: Vec2, b: Vec2): (d: real)
    ensures d >= 0.0
  {
    LengthSqr(Minus(a, b))
  }

  /** The metric vanishes exactly on coincident points. */
  lemma DistanceSqrZero(a: Vec2, b: Vec2)
    ensures DistanceSqr(a, b) == 0.0 <==> a == b
  {
    if a != b {
      LengthSqrPositive(Minus(a, b));
    } else {
      assert Minus(a, b) == Origin;
    }
  }

  /** The metric does not depend on the order of its arguments. */
  lemma DistanceSqrSymmetric(a: Vec2, b: Vec2)
    ensures DistanceSqr(a, b) == DistanceSqr(b, a)
  {
    SquareOfNegation(a.x - b.x);
    SquareOfNegation(a.y - b.y);
  }

  /** Only the zero vector has zero length. */
  lemma LengthSqrPositive(v: Vec2)
    requires v != Origin
    ensures LengthSqr(v) > 0.0
  {
    if v.x != 0.0 {
      calc {
        LengthSqr(v);
        == v.x * v.x + v.y * v.y;
        >= v.x * v.x;
        > { SquarePositive(v.x); } 0.0;
      }
    } else {
      calc {
        LengthSqr(v);
        == v.x * v.x + v.y * v.y;
        >= v.y * v.y;
        > { SquarePositive(v.y); } 0.0;
      }
    }
  }

  lemma SquarePositive(r: real)
    requires r != 0.0
    ensures r * r > 0.0
  {
  }

  lemma SquareOfNegation(r: real)
    ensures (-r) * (-r) == r * r
  {
  }
}

=== FILE: nearest.dfy ===
/** The "nearest so far" scan the strategy runs over loot boxes and units:
    visit the elements in order and replace the current best only when a
    candidate is STRICTLY closer, so the first of several equally close
    candidates is the one kept. */
module Nearest {
  import opened Optional
  import opened Geometry

  /** `i` indexes an eligible element no eligible element is strictly closer
      to `origin` than, and every eligible element before it is strictly
      farther: the argmin with first-seen tie-break. */
  ghost predicate IsFirstNearest<T>(origin: Vec2, xs: seq<T>, pos: T -> Vec2, eligible: T -> bool, i: int)
  {
    && 0 <= i < |xs|
    && eligible(xs[i])
    && (forall j :: 0 <= j < |xs| && eligible(xs[j]) ==>
          DistanceSqr(origin, pos(xs[i])) <= DistanceSqr(origin, pos(xs[j])))
    && (forall j :: 0 <= j < i && eligible(xs[j]) ==>
          DistanceSqr(origin, pos(xs[i])) < DistanceSqr(origin, pos(xs[j])))
  }

  /** The scan's state after visiting all of `xs`: `None` while nothing
      eligible has been seen (the source's `nullptr`), otherwise the index of
      the element kept. Each step is the source's
      `if (best == nullptr || d(x) < d(best)) best = x`. */
  function Nearest<T>(origin: Vec2, xs: seq<T>, pos: T -> Vec2, eligible: T -> bool): (r: Option<nat>)
    ensures r.None? <==> forall j :: 0 <= j < |xs| ==> !eligible(xs[j])
    ensures r.Some? ==> IsFirstNearest(origin, xs, pos, eligible, r.value)
    decreases |xs|
  {
    if |xs| == 0 then None
    else
      var n := |xs| - 1;
      var prefix := xs[..n];
      assert forall j :: 0 <= j < n ==> prefix[j] == xs[j];
      var best := Nearest(origin, prefix, pos, eligible);
      if eligible(xs[n]) && (best.None? || DistanceSqr(origin, pos(xs[n])) < DistanceSqr(origin, pos(xs[best.value])))
      then Some(n)
      else best
  }

  /** At most one index satisfies the argmin-with-first-seen predicate. */
  lemma FirstNearestUnique<T>(origin: Vec2, xs: seq<T>, pos: T -> Vec2, eligible: T -> bool, i: int, k: int)
    requires IsFirstNearest(origin, xs, pos, eligible, i)
    requires IsFirstNearest(origin, xs, pos, eligible, k)
    ensures i == k
  {
  }

  /** The scan returns `Some(i)` exactly for the index `IsFirstNearest`
      singles out: the predicate is a complete reference definition. */
  lemma NearestCharacterized<T>(origin: Vec2, xs: seq<T>, pos: T -> Vec2, eligible: T -> bool, i: int)
    ensures Nearest(origin, xs, pos, eligible) == Some(i) <==> i >= 0 && IsFirstNearest(origin, xs, pos, eligible, i)
  {
    var r := Nearest(origin, xs, pos, eligible);
    if IsFirstNearest(origin, xs, pos, eligible, i) {
      assert r.Some?;
      FirstNearestUnique(origin, xs, pos, eligible, r.value, i);
    }
  }
}

=== FILE: optional.dfy ===
/** The optional value that stands in for the source's possibly-null pointers. */
module Optional {

  /** `None` plays the role of `nullptr`; `Some(v)` a pointer to `v`. */
  datatype Option<+T> = None | Some(value: T)
}

=== FILE: scans.dfy ===
/** The per-tick searches of the strategy: nearest box of each loot category,
    nearest enemy, and the nearest weapon across the three weapon categories. */
module Scans {
  import opened Optional
  import opened Geometry
  import opened World
  import Nearest

  /** The loot categories the strategy tracks. A weapon that is neither a
      pistol nor a rocket launcher falls into the rifle category, as the
      final `else` of the source's classification does. */
  datatype Category = PistolBox | LauncherBox | RifleBox | HealthBox

  predicate InCategory(item: Item, c: Category)
  {
    match c
    case PistolBox => item == WeaponItem(Pistol)
    case LauncherBox => item == WeaponItem(RocketLauncher)
    case RifleBox => item.WeaponItem? && item.weaponType != Pistol && item.weaponType != RocketLauncher
    case HealthBox => item.HealthPack?
  }

  /** Some box of the snapshot falls into category `c`. */
  predicate Present(boxes: seq<LootBox>, c: Category)
  {
    exists j :: 0 <= j < |boxes| && InCategory(boxes[j].item, c)
  }

  /** Some unit of the snapshot belongs to another player than `me`. */
  predicate HasEnemy(me: Unit, units: seq<Unit>)
  {
    exists j :: 0 <= j < |units| && units[j].playerId != me.playerId
  }

  function BoxPosition(b: LootBox): Vec2
  {
    b.position
  }

  function UnitPosition(u: Unit): Vec2
  {
    u.position
  }

  /** Squared distance from `origin` to box `i`. */
  function BoxDistance(origin: Vec2, boxes: seq<LootBox>, i: nat): real
    requires i < |boxes|
  {
    DistanceSqr(origin, boxes[i].position)
  }

  /** Nearest box of category `c`: `None` iff there is none, otherwise a box
      of that category no box of that category is strictly closer than, and
      the first in list order among the equally close ones. */
  function NearestBox(origin: Vec2, boxes: seq<LootBox>, c: Category): (r: Option<nat>)
    ensures r.Some? <==> Present(boxes, c)
    ensures r.Some? ==> r.value < |boxes| && InCategory(boxes[r.value].item, c)
    ensures r.Some? ==> forall j :: 0 <= j < |boxes| && InCategory(boxes[j].item, c) ==>
              BoxDistance(origin, boxes, r.value) <= BoxDistance(origin, boxes, j)
    ensures r.Some? ==> forall j :: 0 <= j < r.value && InCategory(boxes[j].item, c) ==>
              BoxDistance(origin, boxes, r.value) < BoxDistance(origin, boxes, j)
  {
    Nearest.Nearest(origin, boxes, BoxPosition, (b: LootBox) => InCategory(b.item, c))
  }

  /** A category with a single box on the map resolves to that box, wherever
      the unit stands. */
  lemma OnlyBoxOfCategory(origin: Vec2, boxes: seq<LootBox>, c: Category, i: nat)
    requires i < |boxes| && InCategory(boxes[i].item, c)
    requires forall j :: 0 <= j < |boxes| && j != i ==> !InCategory(boxes[j].item, c)
    ensures NearestBox(origin, boxes, c) == Some(i)
  {
  }

  /** Nearest unit of another player: `None` iff every unit shares the acting
      unit's player id, otherwise an other-player unit none is strictly closer
      than, first in list order among the equally close ones. */
  function NearestEnemy(me: Unit, units: seq<Unit>): (r: Option<nat>)
    ensures r.Some? <==> HasEnemy(me, units)
    ensures r.Some? ==> r.value < |units| && units[r.value].playerId != me.playerId
    ensures r.Some? ==> forall j :: 0 <= j < |units| && units[j].playerId != me.playerId ==>
              DistanceSqr(me.position, units[r.value].position) <= DistanceSqr(me.position, units[j].position)
    ensures r.Some? ==> forall j :: 0 <= j < r.value && units[j].playerId != me.playerId ==>
              DistanceSqr(me.position, units[r.value].position) < DistanceSqr(me.position, units[j].position)
  {
    Nearest.Nearest(me.position, units, UnitPosition, (u: Unit) => u.playerId != me.playerId)
  }

  /** The source's composite choice among three boxes that must all exist:
      start from the rifle, switch to the launcher only if strictly closer,
      then to the pistol only if strictly closer than the current choice.
      The result is the closest of the three; ties go to the rifle, then the
      launcher. */
  function NearestWeapon(origin: Vec2, boxes: seq<LootBox>, rifle: nat, launcher: nat, pistol: nat): (w: nat)
    requires rifle < |boxes| && launcher < |boxes| && pistol < |boxes|
    ensures w == rifle || w == launcher || w == pistol
    ensures BoxDistance(origin, boxes, w) <= BoxDistance(origin, boxes, rifle)
    ensures BoxDistance(origin, boxes, w) <= BoxDistance(origin, boxes, launcher)
    ensures BoxDistance(origin, boxes, w) <= BoxDistance(origin, boxes, pistol)
    ensures (&& BoxDistance(origin, boxes, rifle) <= BoxDistance(origin, boxes, launcher)
             && BoxDistance(origin, boxes, rifle) <= BoxDistance(origin, boxes, pistol)) ==> w == rifle
    ensures (&& BoxDistance(origin, boxes, launcher) < BoxDistance(origin, boxes, rifle)
             && BoxDistance(origin, boxes, launcher) <= BoxDistance(origin, boxes, pistol)) ==> w == launcher
    ensures (&& BoxDistance(origin, boxes, pistol) < BoxDistance(origin, boxes, rifle)
             && BoxDistance(origin, boxes, pistol) < BoxDistance(origin, boxes, launcher)) ==> w == pistol
  {
    var first := if BoxDistance(origin, boxes, launcher) < BoxDistance(origin, boxes, rifle) then launcher else rifle;
    if BoxDistance(origin, boxes, pistol) < BoxDistance(origin, boxes, first) then pistol else first
  }

  /** Keeps `best` unless `candidate` exists and is strictly closer; an absent
      candidate never wins. */
  function Closer(origin: Vec2, boxes: seq<LootBox>, best: Option<nat>, candidate: Option<nat>): (r: Option<nat>)
    requires best.Some? ==> best.value < |boxes|
    requires candidate.Some? ==> candidate.value < |boxes|
    ensures r == best || r == candidate
    ensures r.None? <==> best.None? && candidate.None?
    ensures r.Some? && best.Some? ==> BoxDistance(origin, boxes, r.value) <= BoxDistance(origin, boxes, best.value)
    ensures r.Some? && candidate.Some? ==> BoxDistance(origin, boxes, r.value) <= BoxDistance(origin, boxes, candidate.value)
    ensures best.Some? && (candidate.Some? ==> BoxDistance(origin, boxes, best.value) <= BoxDistance(origin, boxes, candidate.value)) ==> r == best
  {
    if candidate.Some? && (best.None? || BoxDistance(origin, boxes, candidate.value) < BoxDistance(origin, boxes, best.value))
    then candidate
    else best
  }

  predicate IsWeaponBox(b: LootBox)
  {
    b.item.WeaponItem?
  }

  /** Every weapon box falls into exactly one of the three weapon categories,
      so some weapon box exists iff one of the categories is present. */
  lemma WeaponCategories(boxes: seq<LootBox>)
    ensures forall j :: 0 <= j < |boxes| && IsWeaponBox(boxes[j]) ==>
              InCategory(boxes[j].item, RifleBox) || InCategory(boxes[j].item, LauncherBox) || InCategory(boxes[j].item, PistolBox)
    ensures (exists j :: 0 <= j < |boxes| && IsWeaponBox(boxes[j])) <==>
              Present(boxes, RifleBox) || Present(boxes, LauncherBox) || Present(boxes, PistolBox)
  {
  }

  /** The composite nearest weapon with absent categories left out of the
      comparison instead of dereferenced: `None` iff there is no weapon box
      at all, otherwise a weapon box no weapon box is strictly closer than. */
  function NearestWeaponSafe(origin: Vec2, boxes: seq<LootBox>): (w: Option<nat>)
    ensures w.None? <==> forall j :: 0 <= j < |boxes| ==> !IsWeaponBox(boxes[j])
    ensures w.Some? ==> w.value < |boxes| && IsWeaponBox(boxes[w.value])
    ensures w.Some? ==> forall j :: 0 <= j < |boxes| && IsWeaponBox(boxes[j]) ==>
              BoxDistance(origin, boxes, w.value) <= BoxDistance(origin, boxes, j)
  {
    var rifle := NearestBox(origin, boxes, RifleBox);
    var launcher := NearestBox(origin, boxes, LauncherBox);
    var pistol := NearestBox(origin, boxes, PistolBox);
    WeaponCategories(boxes);
    Closer(origin, boxes, Closer(origin, boxes, rifle, launcher), pistol)
  }

  /** Ties among weapon boxes go to the rifle, as the source's composite
      starts from the rifle and switches only on a strictly closer box. */
  lemma RiflePreferred(origin: Vec2, boxes: seq<LootBox>)
    requires NearestBox(origin, boxes, RifleBox).Some?
    requires forall j :: 0 <= j < |boxes| && IsWeaponBox(boxes[j]) ==>
               BoxDistance(origin, boxes, NearestBox(origin, boxes, RifleBox).value) <= BoxDistance(origin, boxes, j)
    ensures NearestWeaponSafe(origin, boxes) == NearestBox(origin, boxes, RifleBox)
  {
  }

  /** Where all three categories are present, the safe composite is exactly
      the source's composite, and that box is nearest among ALL weapon boxes. */
  lemma NearestWeaponSafeAgrees(origin: Vec2, boxes: seq<LootBox>)
    requires NearestBox(origin, boxes, RifleBox).Some?
    requires NearestBox(origin, boxes, LauncherBox).Some?
    requires NearestBox(origin, boxes, PistolBox).Some?
    ensures var w := NearestWeapon(origin, boxes, NearestBox(origin, boxes, RifleBox).value,
                                   NearestBox(origin, boxes, LauncherBox).value,
                                   NearestBox(origin, boxes, PistolBox).value);
            && NearestWeaponSafe(origin, boxes) == Some(w)
            && forall j :: 0 <= j < |boxes| && IsWeaponBox(boxes[j]) ==>
                 BoxDistance(origin, boxes, w) <= BoxDistance(origin, boxes, j)
  {
  }
}

=== FILE: scenarios.dfy ===
/** Concrete snapshots: what the routine does in a few typical situations,
    and inputs on which the unchecked routine is undefined. */
module Scenarios {
  import opened Optional
  import opened Geometry
  import opened World
  import opened Scans
  import opened LineOfSight
  import opened Strategy

  /** A 12 x 12 grid with a single wall tile at column `wx`, row `wy`. */
  function Grid(wx: int, wy: int): Level
  {
    Level(seq(12, i => seq(12, j => if i == wx && j == wy then Wall else Empty)))
  }

  const Me := Vec2(5.0, 5.0)

  /** A rifle holder with an enemy five tiles to its right and no loot: the
      source would dereference missing loot, the checked routine runs at the
      enemy, aims straight at it and fires through the empty row. */
  lemma RifleEngagesEnemy(magazine: int)
    ensures var me := Unit(1, 1, 100, Me, Some(Weapon(AssaultRifle, magazine)));
            var game := Game([me, Unit(2, 2, 100, Vec2(10.0, 5.0), None)], [], Grid(-1, -1));
            var walk := [Vec2(6.0, 5.0), Vec2(7.0, 5.0), Vec2(8.0, 5.0), Vec2(9.0, 5.0), Vec2(10.0, 5.0)];
            && !SourceDefined(me, game)
            && ProbeDefined(game.level, Me, SafeTarget(me, game).pos)
            && WalkDefined(game.level, walk)
            && var r := GetActionSafe(me, game, walk);
               && r.velocity == 5.0
               && r.aim == Vec2(5.0, 0.0)
               && !r.jump && r.jumpDown
               && r.shoot
               && (r.reload <==> magazine == 0)
               && !r.swapWeapon && !r.plantMine
  {
    var me := Unit(1, 1, 100, Me, Some(Weapon(AssaultRifle, magazine)));
    var enemy := Unit(2, 2, 100, Vec2(10.0, 5.0), None);
    var game := Game([me, enemy], [], Grid(-1, -1));
    var walk := [Vec2(6.0, 5.0), Vec2(7.0, 5.0), Vec2(8.0, 5.0), Vec2(9.0, 5.0), Vec2(10.0, 5.0)];
    assert NearestEnemy(me, game.units) == Some(1);
    assert SafeTarget(me, game).pos == Vec2(10.0, 5.0);
    assert forall i :: 0 <= i < |walk| ==> InGrid(game.level, walk[i]) && TileAt(game.level, walk[i]) == Empty;
  }

  /** An unarmed unit next to a lone pistol, with no enemy on the map. The
      source dereferences the missing launcher and rifle boxes (and later the
      missing enemy); the checked routine walks to the pistol without asking
      for a swap, aims nowhere and neither shoots nor plants a mine. */
  lemma LonePistolWithoutEnemy()
    ensures var me := Unit(1, 1, 100, Me, None);
            var game := Game([me], [LootBox(Vec2(6.0, 5.0), WeaponItem(Pistol))], Grid(-1, -1));
            && NearestBox(Me, game.lootBoxes, LauncherBox).None?
            && NearestEnemy(me, game.units).None?
            && !SourceDefined(me, game)
            && ProbeDefined(game.level, Me, SafeTarget(me, game).pos)
            && var r := GetActionSafe(me, game, []);
               && SafeTarget(me, game) == Target(Vec2(6.0, 5.0), false)
               && r.velocity == 1.0
               && r.aim == Origin
               && !r.shoot && !r.plantMine && !r.swapWeapon
  {
    var me := Unit(1, 1, 100, Me, None);
    var game := Game([me], [LootBox(Vec2(6.0, 5.0), WeaponItem(Pistol))], Grid(-1, -1));
    assert NearestWeaponSafe(Me, game.lootBoxes) == Some(0);
    assert InGrid(game.level, Vec2(6.0, 5.0));
  }

  /** A wounded pistol holder with a health pack behind a wall on its left and
      an enemy adjacent on its right, all three weapon kinds lying about so
      the source is defined. */
  function WoundedMe(): Unit
  {
    Unit(1, 1, 50, Me, Some(Weapon(Pistol, 10)))
  }

  function CrowdedGame(): Game
  {
    Game([Unit(2, 2, 100, Vec2(6.0, 5.0), None), WoundedMe()],
         [LootBox(Vec2(1.0, 1.0), WeaponItem(Pistol)),
          LootBox(Vec2(1.0, 2.0), WeaponItem(RocketLauncher)),
          LootBox(Vec2(1.0, 3.0), WeaponItem(AssaultRifle)),
          LootBox(Vec2(2.0, 5.0), HealthPack(50))],
         Grid(4, 5))
  }

  /** In that snapshot every weapon kind is present, ... */
  lemma CrowdedWeapons()
    ensures Present(CrowdedGame().lootBoxes, PistolBox)
    ensures Present(CrowdedGame().lootBoxes, LauncherBox)
    ensures Present(CrowdedGame().lootBoxes, RifleBox)
  {
    var boxes := CrowdedGame().lootBoxes;
    assert InCategory(boxes[0].item, PistolBox);
    assert InCategory(boxes[1].item, LauncherBox);
    assert InCategory(boxes[2].item, RifleBox);
  }

  /** ... the single health pack is the nearest one, ... */
  lemma CrowdedHealth()
    ensures NearestBox(Me, CrowdedGame().lootBoxes, HealthBox) == Some(3)
  {
    OnlyBoxOfCategory(Me, CrowdedGame().lootBoxes, HealthBox, 3);
  }

  /** ... and the first unit is the only enemy. */
  lemma CrowdedEnemy()
    ensures NearestEnemy(WoundedMe(), CrowdedGame().units) == Some(0)
  {
    assert CrowdedGame().units[0].playerId != WoundedMe().playerId;
  }

  /** In that snapshot the source is defined and settles on the health pack:
      the pistol holder would swap to the rifle, but the override cancels it. */
  lemma CrowdedTarget()
    ensures HoldsNonRifle(WoundedMe()) && Present(CrowdedGame().lootBoxes, RifleBox)
    ensures SourceDefined(WoundedMe(), CrowdedGame())
    ensures SourceEnemy(WoundedMe(), CrowdedGame()) == Vec2(6.0, 5.0)
    ensures SourceTarget(WoundedMe(), CrowdedGame()) == Target(Vec2(2.0, 5.0), false)
  {
    CrowdedWeapons();
    CrowdedHealth();
    CrowdedEnemy();
    assert LowHealth(WoundedMe());
    assert BoxAt(CrowdedGame().lootBoxes, Some(3)) == Some(Vec2(2.0, 5.0));
  }

  /** The wall left of the unit, and the empty tile the enemy stands on. */
  lemma CrowdedGrid()
    ensures InGrid(CrowdedGame().level, Vec2(4.0, 5.0)) && TileAt(CrowdedGame().level, Vec2(4.0, 5.0)) == Wall
    ensures InGrid(CrowdedGame().level, Vec2(6.0, 5.0)) && TileAt(CrowdedGame().level, Vec2(6.0, 5.0)) == Empty
  {
  }

  /** The source's routine is defined on that snapshot: the probe left of
      the unit and the one-sample walk to the enemy stay inside the grid. */
  lemma CrowdedDefined()
    ensures SourceDefined(WoundedMe(), CrowdedGame())
    ensures ProbeDefined(CrowdedGame().level, Me, SourceTarget(WoundedMe(), CrowdedGame()).pos)
    ensures WalkDefined(CrowdedGame().level, [Vec2(6.0, 5.0)])
  {
    CrowdedTarget();
    CrowdedGrid();
  }

  /** The command is assembled from the health-pack target and the enemy. */
  lemma CrowdedAction()
    ensures SourceDefined(WoundedMe(), CrowdedGame())
    ensures ProbeDefined(CrowdedGame().level, Me, SourceTarget(WoundedMe(), CrowdedGame()).pos)
    ensures WalkDefined(CrowdedGame().level, [Vec2(6.0, 5.0)])
    ensures GetAction(WoundedMe(), CrowdedGame(), [Vec2(6.0, 5.0)]) ==
              Assemble(WoundedMe(), CrowdedGame().level, Target(Vec2(2.0, 5.0), false), Some(Vec2(6.0, 5.0)),
                       ClearShot(Me, Vec2(6.0, 5.0), CrowdedGame().level, [Vec2(6.0, 5.0)]))
  {
    CrowdedDefined();
    CrowdedTarget();
  }

  /** The command built from that target: head left, jump the wall, aim
      right, fire, plant a mine, no reload, no swap. */
  lemma CrowdedCommand()
    ensures Assemble(WoundedMe(), CrowdedGame().level, Target(Vec2(2.0, 5.0), false), Some(Vec2(6.0, 5.0)),
                     ClearShot(Me, Vec2(6.0, 5.0), CrowdedGame().level, [Vec2(6.0, 5.0)]))
            == UnitAction(-3.0, true, false, Vec2(1.0, 0.0), true, false, false, true)
  {
    CrowdedGrid();
    var level := CrowdedGame().level;
    assert WallAhead(level, Me, Vec2(2.0, 5.0));
    assert ClearShot(Me, Vec2(6.0, 5.0), level, [Vec2(6.0, 5.0)]);
    assert Adjacent(Me, Vec2(6.0, 5.0));
  }

  /** The unit heads left for the pack and jumps the wall; the adjacency rule
      plants a mine and cancels the reload the wall requested, and a clear
      shot with a loaded pistol does not bring it back. */
  lemma AdjacentEnemyPlantsMine()
    ensures SourceDefined(WoundedMe(), CrowdedGame())
    ensures ProbeDefined(CrowdedGame().level, Me, SourceTarget(WoundedMe(), CrowdedGame()).pos)
    ensures WalkDefined(CrowdedGame().level, [Vec2(6.0, 5.0)])
    ensures var r := GetAction(WoundedMe(), CrowdedGame(), [Vec2(6.0, 5.0)]);
            && r.velocity == -3.0
            && r.jump && !r.jumpDown
            && r.plantMine
            && r.shoot
            && !r.reload
            && !r.swapWeapon
  {
    CrowdedAction();
    CrowdedCommand();
  }

  /** A pistol holder with every weapon kind lying about, whose only
      companion is a teammate. */
  function PistolHolder(): Unit
  {
    Unit(1, 1, 100, Me, Some(Weapon(Pistol, 8)))
  }

  function TeammatesGame(): Game
  {
    Game([PistolHolder(), Unit(1, 2, 100, Vec2(7.0, 5.0), None)],
         [LootBox(Vec2(1.0, 1.0), WeaponItem(Pistol)),
          LootBox(Vec2(1.0, 2.0), WeaponItem(RocketLauncher)),
          LootBox(Vec2(1.0, 3.0), WeaponItem(AssaultRifle))],
         Grid(-1, -1))
  }

  /** In that snapshot each weapon category holds a single box. */
  lemma TeammatesWeapons()
    ensures NearestBox(Me, TeammatesGame().lootBoxes, PistolBox) == Some(0)
    ensures NearestBox(Me, TeammatesGame().lootBoxes, LauncherBox) == Some(1)
    ensures NearestBox(Me, TeammatesGame().lootBoxes, RifleBox) == Some(2)
  {
    var boxes := TeammatesGame().lootBoxes;
    OnlyBoxOfCategory(Me, boxes, PistolBox, 0);
    OnlyBoxOfCategory(Me, boxes, LauncherBox, 1);
    OnlyBoxOfCategory(Me, boxes, RifleBox, 2);
  }

  /** ... and there is neither a health pack nor an enemy. */
  lemma TeammatesAbsent()
    ensures NearestBox(Me, TeammatesGame().lootBoxes, HealthBox) == None
    ensures SafeEnemy(PistolHolder(), TeammatesGame()) == None
  {
  }

  /** Squared distances from the unit to the pistol, launcher and rifle. */
  lemma TeammatesDistances()
    ensures BoxDistance(Me, TeammatesGame().lootBoxes, 0) == 32.0
    ensures BoxDistance(Me, TeammatesGame().lootBoxes, 1) == 25.0
    ensures BoxDistance(Me, TeammatesGame().lootBoxes, 2) == 20.0
  {
  }

  /** The rifle is the closest weapon box. */
  lemma TeammatesNearestWeapon()
    ensures NearestWeaponSafe(Me, TeammatesGame().lootBoxes) == Some(2)
  {
    TeammatesWeapons();
    TeammatesDistances();
  }

  /** So the checked ladder sends the armed unit to swap for the rifle. */
  lemma TeammatesTarget()
    ensures SafeTarget(PistolHolder(), TeammatesGame()) == Target(Vec2(1.0, 3.0), true)
  {
    TeammatesWeapons();
    TeammatesAbsent();
    TeammatesNearestWeapon();
  }

  /** The source dereferences the missing nearest enemy at the adjacency test
      and the line-of-sight call; the checked routine aims nowhere, holds
      fire, plants nothing, and so asks the armed unit to reload. */
  lemma TeammatesOnly()
    ensures Present(TeammatesGame().lootBoxes, PistolBox)
    ensures Present(TeammatesGame().lootBoxes, LauncherBox)
    ensures Present(TeammatesGame().lootBoxes, RifleBox)
    ensures !SourceDefined(PistolHolder(), TeammatesGame())
    ensures ProbeDefined(TeammatesGame().level, Me, SafeTarget(PistolHolder(), TeammatesGame()).pos)
    ensures var r := GetActionSafe(PistolHolder(), TeammatesGame(), []);
            && r.aim == Origin && !r.shoot && !r.plantMine && r.reload
            && r.swapWeapon && r.velocity == -4.0
  {
    TeammatesWeapons();
    TeammatesAbsent();
    TeammatesTarget();
    var me, game := PistolHolder(), TeammatesGame();
    assert InGrid(game.level, Vec2(4.0, 5.0));
    assert ProbeDefined(game.level, Me, Vec2(1.0, 3.0));
    var r := GetActionSafe(me, game, []);
    assert r == Assemble(me, game.level, Target(Vec2(1.0, 3.0), true), None, false);
  }
}

=== FILE: sight.dfy ===
/** Tile lookups and the line-of-sight test between the unit and its enemy. */
module LineOfSight {
  import opened Geometry
  import opened World

  /** `p` truncates to a tile of the grid. For non-negative coordinates the
      conversion to an unsigned index is the floor. A coordinate in (-1, 0)
      would also truncate to index 0, but the model asks for non-negative
      coordinates and leaves that case out. */
  predicate InGrid(level: Level, p: Vec2)
  {
    && p.x >= 0.0
    && p.y >= 0.0
    && p.x.Floor < |level.tiles|
    && p.y.Floor < |level.tiles[p.x.Floor]|
  }

  /** The tile `tiles[size_t(p.x)][size_t(p.y)]`. */
  function TileAt(level: Level, p: Vec2): Tile
    requires InGrid(level, p)
  {
    level.tiles[p.x.Floor][p.y.Floor]
  }

  /** Walls and platforms block a shot; every other tile lets it through. */
  predicate Obstructs(t: Tile)
  {
    t == Wall || t == Platform
  }

  /** Every lookup the walk makes before it stops lies inside the grid: it
      stops at the first obstructing sample, so later samples are never read. */
  predicate WalkDefined(level: Level, walk: seq<Vec2>)
    decreases |walk|
  {
    || |walk| == 0
    || (&& InGrid(level, walk[0])
        && (!Obstructs(TileAt(level, walk[0])) ==> WalkDefined(level, walk[1..])))
  }

  /** Looks up the sampled points in order and fails at the first one that
      lands on an obstructing tile. */
  function WalkClear(level: Level, walk: seq<Vec2>): (r: bool)
    requires WalkDefined(level, walk)
    ensures r <==> forall i :: 0 <= i < |walk| ==> InGrid(level, walk[i]) && !Obstructs(TileAt(level, walk[i]))
    ensures !r ==> exists i :: && 0 <= i < |walk|
                               && InGrid(level, walk[i]) && Obstructs(TileAt(level, walk[i]))
                               && forall j :: 0 <= j < i ==> InGrid(level, walk[j]) && !Obstructs(TileAt(level, walk[j]))
    decreases |walk|
  {
    if |walk| == 0 then true
    else if Obstructs(TileAt(level, walk[0])) then false
    else
      var rest := WalkClear(level, walk[1..]);
      assert forall i :: 0 < i < |walk| ==> walk[i] == walk[1..][i - 1];
      rest
  }

  /** Whether the unit at `a` has a clear shot at `b`. Equal x-coordinates are
      clear by convention, whatever lies between (the slope would divide by
      zero). Otherwise the source walks from `a` towards `b` in unit steps
      whose direction comes from a square root and whose positions accumulate
      floating-point error; `walk` is the sequence of points that walk samples,
      and the shot is clear iff none of them lands on a wall or a platform.
      Neither the points nor their number are computed here. */
  function ClearShot(a: Vec2, b: Vec2, level: Level, walk: seq<Vec2>): (r: bool)
    requires a.x != b.x ==> WalkDefined(level, walk)
    ensures a.x == b.x ==> r
    ensures a.x != b.x ==>
              (r <==> forall i :: 0 <= i < |walk| ==> InGrid(level, walk[i]) && !Obstructs(TileAt(level, walk[i])))
  {
    if a.x == b.x then true else WalkClear(level, walk)
  }

  /** Number of iterations of `while (distance >= 1) distance -= 1`, the loop
      that bounds the walk: one sample per whole unit of distance. */
  function Steps(distance: real): nat
    decreases distance.Floor
  {
    if distance >= 1.0 then 1 + Steps(distance - 1.0) else 0
  }

  /** For a non-negative distance the walk takes floor(distance) samples. */
  lemma {:induction false} StepsIsFloor(distance: real)
    requires distance >= 0.0
    ensures Steps(distance) == distance.Floor
    decreases distance.Floor
  {
    if distance >= 1.0 {
      StepsIsFloor(distance - 1.0);
    }
  }
}

=== FILE: strategy.dfy ===
/** The per-tick decision: pick a target from a fixed priority ladder, then
    derive movement, aim, shooting, reloading and mine planting from it. */
module Strategy {
  import opened Optional
  import opened Geometry
  import opened World
  import opened Scans
  import opened LineOfSight

  /** Below this much health the unit heads for a health pack. */
  const HealthLimit: int := 70

  /** Where the unit heads this tick, and whether it asks to swap weapons. */
  datatype Target = Target(pos: Vec2, swapWeapon: bool)

  predicate LowHealth(unit: Unit)
  {
    unit.health < HealthLimit
  }

  /** The unit is armed, but not with an assault rifle. */
  predicate HoldsNonRifle(unit: Unit)
  {
    unit.weapon.Some? && unit.weapon.value.typ != AssaultRifle
  }

  /** The priority ladder. Without a weapon, go to the nearest weapon; with a
      weapon other than a rifle, go to the nearest rifle and swap; otherwise go
      to the nearest enemy; if none applies, stay on `fallback`. Then, below
      the health limit, a health pack overrides whatever was chosen and
      cancels the swap. */
  function ChooseTarget(unit: Unit, fallback: Vec2, weapon: Option<Vec2>, rifle: Option<Vec2>,
                        enemy: Option<Vec2>, health: Option<Vec2>): (t: Target)
    ensures LowHealth(unit) && health.Some? ==> t == Target(health.value, false)
    ensures t.swapWeapon <==> !(LowHealth(unit) && health.Some?) && HoldsNonRifle(unit) && rifle.Some?
    ensures t.swapWeapon ==> t.pos == rifle.value
    ensures !(LowHealth(unit) && health.Some?) && unit.weapon.None? && weapon.Some? ==> t.pos == weapon.value
    ensures (&& !(LowHealth(unit) && health.Some?)
             && !(unit.weapon.None? && weapon.Some?)
             && !(HoldsNonRifle(unit) && rifle.Some?)) ==>
              t.pos == (if enemy.Some? then enemy.value else fallback)
  {
    var chosen :=
      if unit.weapon.None? && weapon.Some? then Target(weapon.value, false)
      else if unit.weapon.Some? && rifle.Some? && unit.weapon.value.typ != AssaultRifle then Target(rifle.value, true)
      else if enemy.Some? then Target(enemy.value, false)
      else Target(fallback, false);
    if LowHealth(unit) && health.Some? then Target(health.value, false) else chosen
  }

  /** The position of box `i`, when there is one. */
  function BoxAt(boxes: seq<LootBox>, i: Option<nat>): Option<Vec2>
    requires i.Some? ==> i.value < |boxes|
  {
    if i.Some? then Some(boxes[i.value].position) else None
  }

  /** The two lookups of the tile beside the unit, on the side it is heading
      to, read inside the grid. */
  predicate ProbeDefined(level: Level, pos: Vec2, target: Vec2)
  {
    && (target.x > pos.x ==> InGrid(level, Vec2(pos.x + 1.0, pos.y)))
    && (target.x < pos.x ==> InGrid(level, Vec2(pos.x - 1.0, pos.y)))
  }

  /** A wall on the tile next to the unit in the direction of its target. */
  predicate WallAhead(level: Level, pos: Vec2, target: Vec2)
    requires ProbeDefined(level, pos, target)
  {
    || (target.x > pos.x && TileAt(level, Vec2(pos.x + 1.0, pos.y)) == Wall)
    || (target.x < pos.x && TileAt(level, Vec2(pos.x - 1.0, pos.y)) == Wall)
  }

  /** The enemy stands one unit to the left or right on the same row:
      `|enemy.x - unit.x| == 1 && enemy.y == unit.y`. */
  predicate Adjacent(pos: Vec2, enemy: Vec2)
  {
    (enemy.x - pos.x == 1.0 || enemy.x - pos.x == -1.0) && enemy.y == pos.y
  }

  /** Builds the command from the chosen target, the enemy (if any) and the
      line-of-sight verdict. The body follows the source's order of flag
      updates: jump starts as "target higher", each wall probe sets jump and
      reload, an adjacent enemy clears reload and plants a mine, and an armed
      unit that is not shooting or has an empty magazine sets reload again.
      The contract gives the closed form of that sequence. */
  function Assemble(unit: Unit, level: Level, target: Target, enemy: Option<Vec2>, shoot: bool): (a: UnitAction)
    requires ProbeDefined(level, unit.position, target.pos)
    ensures a.velocity == target.pos.x - unit.position.x
    ensures a.jump <==> target.pos.y > unit.position.y || WallAhead(level, unit.position, target.pos)
    ensures a.jumpDown == !a.jump
    ensures a.aim == (if enemy.Some? then Minus(enemy.value, unit.position) else Origin)
    ensures a.shoot == shoot
    ensures a.plantMine <==> enemy.Some? && Adjacent(unit.position, enemy.value)
    ensures a.reload <==> || (WallAhead(level, unit.position, target.pos) && !a.plantMine)
                          || (unit.weapon.Some? && (!shoot || unit.weapon.value.magazine == 0))
    ensures a.swapWeapon == target.swapWeapon
  {
    var pos := unit.position;
    var aim := if enemy.Some? then Minus(enemy.value, pos) else Origin;
    var jump, reload, mine := target.pos.y > pos.y, false, false;
    var (jump, reload) :=
      if target.pos.x > pos.x && TileAt(level, Vec2(pos.x + 1.0, pos.y)) == Wall then (true, true) else (jump, reload);
    var (jump, reload) :=
      if target.pos.x < pos.x && TileAt(level, Vec2(pos.x - 1.0, pos.y)) == Wall then (true, true) else (jump, reload);
    var (reload, mine) :=
      if enemy.Some? && Adjacent(pos, enemy.value) then (false, true) else (reload, mine);
    var reload :=
      if unit.weapon.Some? && (!shoot || unit.weapon.value.magazine == 0) then true else reload;
    UnitAction(target.pos.x - pos.x, jump, !jump, aim, shoot, reload, target.swapWeapon, mine)
  }

  // ---------------------------------------------------------------------
  // The routine as written: it dereferences the nearest pistol, launcher,
  // rifle and enemy without checking that they exist.
  // ---------------------------------------------------------------------

  /** What the source assumes without checking. */
  predicate SourceDefined(unit: Unit, game: Game)
  {
    && Present(game.lootBoxes, PistolBox)
    && Present(game.lootBoxes, LauncherBox)
    && Present(game.lootBoxes, RifleBox)
    && HasEnemy(unit, game.units)
  }

  function SourceEnemy(unit: Unit, game: Game): Vec2
    requires SourceDefined(unit, game)
  {
    game.units[NearestEnemy(unit, game.units).value].position
  }

  /** The index of the source's composite nearest weapon. */
  function SourceWeapon(unit: Unit, game: Game): (w: nat)
    requires SourceDefined(unit, game)
    ensures w < |game.lootBoxes| && IsWeaponBox(game.lootBoxes[w])
    ensures forall j :: 0 <= j < |game.lootBoxes| && IsWeaponBox(game.lootBoxes[j]) ==>
              BoxDistance(unit.position, game.lootBoxes, w) <= BoxDistance(unit.position, game.lootBoxes, j)
  {
    var o := unit.position;
    var boxes := game.lootBoxes;
    NearestWeaponSafeAgrees(o, boxes);
    NearestWeapon(o, boxes, NearestBox(o, boxes, RifleBox).value,
                  NearestBox(o, boxes, LauncherBox).value, NearestBox(o, boxes, PistolBox).value)
  }

  /** The target the source settles on; it starts from the composite nearest
      weapon's position. */
  function SourceTarget(unit: Unit, game: Game): Target
    requires SourceDefined(unit, game)
  {
    var o := unit.position;
    var boxes := game.lootBoxes;
    var weapon := boxes[SourceWeapon(unit, game)].position;
    var rifle := boxes[NearestBox(o, boxes, RifleBox).value].position;
    ChooseTarget(unit, weapon, Some(weapon), Some(rifle), Some(SourceEnemy(unit, game)),
                 BoxAt(boxes, NearestBox(o, boxes, HealthBox)))
  }

  /** One tick of the strategy, as the source computes it. `walk` is the list
      of points the line-of-sight walk towards the enemy samples. */
  function GetAction(unit: Unit, game: Game, walk: seq<Vec2>): (r: UnitAction)
    requires SourceDefined(unit, game)
    requires ProbeDefined(game.level, unit.position, SourceTarget(unit, game).pos)
    requires unit.position.x != SourceEnemy(unit, game).x ==> WalkDefined(game.level, walk)
    ensures r.jumpDown == !r.jump
    ensures r.velocity == SourceTarget(unit, game).pos.x - unit.position.x
    ensures r.jump <==> || SourceTarget(unit, game).pos.y > unit.position.y
                        || WallAhead(game.level, unit.position, SourceTarget(unit, game).pos)
    // Health override: a low unit heads for the nearest health pack and never swaps.
    ensures var h := NearestBox(unit.position, game.lootBoxes, HealthBox);
            LowHealth(unit) && h.Some? ==>
              && r.velocity == game.lootBoxes[h.value].position.x - unit.position.x
              && !r.swapWeapon
    // Otherwise an armed unit without a rifle heads for the nearest rifle and swaps.
    ensures var h := NearestBox(unit.position, game.lootBoxes, HealthBox);
            var rifle := NearestBox(unit.position, game.lootBoxes, RifleBox).value;
            !(LowHealth(unit) && h.Some?) && HoldsNonRifle(unit) ==>
              && r.velocity == game.lootBoxes[rifle].position.x - unit.position.x
              && r.swapWeapon
    // Otherwise an unarmed unit heads for the nearest weapon of any kind.
    ensures var h := NearestBox(unit.position, game.lootBoxes, HealthBox);
            !(LowHealth(unit) && h.Some?) && unit.weapon.None? ==>
              && r.velocity == game.lootBoxes[SourceWeapon(unit, game)].position.x - unit.position.x
              && !r.swapWeapon
    // Otherwise a unit holding a rifle heads for the nearest enemy.
    ensures var h := NearestBox(unit.position, game.lootBoxes, HealthBox);
            !(LowHealth(unit) && h.Some?) && unit.weapon.Some? && unit.weapon.value.typ == AssaultRifle ==>
              && r.velocity == SourceEnemy(unit, game).x - unit.position.x
              && !r.swapWeapon
    ensures r.aim == Minus(SourceEnemy(unit, game), unit.position)
    ensures r.shoot == ClearShot(unit.position, SourceEnemy(unit, game), game.level, walk)
    ensures unit.position.x == SourceEnemy(unit, game).x ==> r.shoot
    ensures r.plantMine <==> Adjacent(unit.position, SourceEnemy(unit, game))
    ensures r.reload <==> || (WallAhead(game.level, unit.position, SourceTarget(unit, game).pos) && !r.plantMine)
                          || (unit.weapon.Some? && (!r.shoot || unit.weapon.value.magazine == 0))
  {
    var enemy := SourceEnemy(unit, game);
    Assemble(unit, game.level, SourceTarget(unit, game), Some(enemy),
             ClearShot(unit.position, enemy, game.level, walk))
  }

  // ---------------------------------------------------------------------
  // The routine with every "nearest" result checked before use.
  // ---------------------------------------------------------------------

  /** The nearest enemy's position, when there is an enemy. */
  function SafeEnemy(unit: Unit, game: Game): (e: Option<Vec2>)
    ensures e.None? <==> forall j :: 0 <= j < |game.units| ==> game.units[j].playerId == unit.playerId
    ensures e.Some? ==> exists i :: 0 <= i < |game.units| && game.units[i].playerId != unit.playerId &&
                                    game.units[i].position == e.value
    ensures e.Some? ==> forall j :: 0 <= j < |game.units| && game.units[j].playerId != unit.playerId ==>
                          DistanceSqr(unit.position, e.value) <= DistanceSqr(unit.position, game.units[j].position)
  {
    var i := NearestEnemy(unit, game.units);
    if i.Some? then Some(game.units[i.value].position) else None
  }

  /** The ladder with absent entities skipped; with no target at all the unit
      stays where it is. */
  function SafeTarget(unit: Unit, game: Game): Target
  {
    var o := unit.position;
    var boxes := game.lootBoxes;
    var weapon := BoxAt(boxes, NearestWeaponSafe(o, boxes));
    var fallback := if weapon.Some? then weapon.value else o;
    ChooseTarget(unit, fallback, weapon, BoxAt(boxes, NearestBox(o, boxes, RifleBox)), SafeEnemy(unit, game),
                 BoxAt(boxes, NearestBox(o, boxes, HealthBox)))
  }

  /** One tick with no dereference of a missing entity: without an enemy the
      unit aims nowhere, holds fire and plants no mine. */
  function GetActionSafe(unit: Unit, game: Game, walk: seq<Vec2>): (r: UnitAction)
    requires ProbeDefined(game.level, unit.position, SafeTarget(unit, game).pos)
    requires SafeEnemy(unit, game).Some? && unit.position.x != SafeEnemy(unit, game).value.x ==>
               WalkDefined(game.level, walk)
    ensures r.jumpDown == !r.jump
    // Movement follows the chosen target.
    ensures r.velocity == SafeTarget(unit, game).pos.x - unit.position.x
    ensures r.jump <==> || SafeTarget(unit, game).pos.y > unit.position.y
                        || WallAhead(game.level, unit.position, SafeTarget(unit, game).pos)
    // Health override: a low unit heads for the nearest health pack and never swaps.
    ensures var h := NearestBox(unit.position, game.lootBoxes, HealthBox);
            LowHealth(unit) && h.Some? ==>
              && SafeTarget(unit, game).pos == game.lootBoxes[h.value].position
              && !r.swapWeapon
    // Otherwise an armed unit without a rifle swaps exactly when a rifle box exists, and heads for it.
    ensures var h := NearestBox(unit.position, game.lootBoxes, HealthBox);
            var rifle := NearestBox(unit.position, game.lootBoxes, RifleBox);
            r.swapWeapon <==> !(LowHealth(unit) && h.Some?) && HoldsNonRifle(unit) && rifle.Some?
    ensures var rifle := NearestBox(unit.position, game.lootBoxes, RifleBox);
            r.swapWeapon ==> rifle.Some? && r.velocity == game.lootBoxes[rifle.value].position.x - unit.position.x
    // Otherwise an unarmed unit heads for the nearest weapon box of any kind, when there is one.
    ensures var h := NearestBox(unit.position, game.lootBoxes, HealthBox);
            var w := NearestWeaponSafe(unit.position, game.lootBoxes);
            !(LowHealth(unit) && h.Some?) && unit.weapon.None? && w.Some? ==>
              && r.velocity == game.lootBoxes[w.value].position.x - unit.position.x
              && !r.swapWeapon
    // Otherwise the unit heads for the nearest enemy, when there is one.
    ensures var h := NearestBox(unit.position, game.lootBoxes, HealthBox);
            var rifle := NearestBox(unit.position, game.lootBoxes, RifleBox);
            var w := NearestWeaponSafe(unit.position, game.lootBoxes);
            (&& !(LowHealth(unit) && h.Some?)
             && !(unit.weapon.None? && w.Some?)
             && !(HoldsNonRifle(unit) && rifle.Some?)
             && SafeEnemy(unit, game).Some?) ==>
              r.velocity == SafeEnemy(unit, game).value.x - unit.position.x
    ensures SafeEnemy(unit, game).None? ==> r.aim == Origin && !r.shoot && !r.plantMine
    ensures SafeEnemy(unit, game).Some? ==>
              && r.aim == Minus(SafeEnemy(unit, game).value, unit.position)
              && r.shoot == ClearShot(unit.position, SafeEnemy(unit, game).value, game.level, walk)
              && (r.plantMine <==> Adjacent(unit.position, SafeEnemy(unit, game).value))
    ensures r.reload <==> || (WallAhead(game.level, unit.position, SafeTarget(unit, game).pos) && !r.plantMine)
                          || (unit.weapon.Some? && (!r.shoot || unit.weapon.value.magazine == 0))
    // Nothing to go for: no weapon box, no enemy, and no health pack the unit needs.
    ensures (&& NearestWeaponSafe(unit.position, game.lootBoxes).None?
             && SafeEnemy(unit, game).None?
             && !(LowHealth(unit) && NearestBox(unit.position, game.lootBoxes, HealthBox).Some?)) ==>
              r.velocity == 0.0 && !r.jump
  {
    var enemy := SafeEnemy(unit, game);
    var shoot := enemy.Some? && ClearShot(unit.position, enemy.value, game.level, walk);
    Assemble(unit, game.level, SafeTarget(unit, game), enemy, shoot)
  }

  /** Wherever the source is defined, the checked routine computes exactly
      what the source computes. */
  lemma SafeAgreesWithSource(unit: Unit, game: Game, walk: seq<Vec2>)
    requires SourceDefined(unit, game)
    requires ProbeDefined(game.level, unit.position, SourceTarget(unit, game).pos)
    requires unit.position.x != SourceEnemy(unit, game).x ==> WalkDefined(game.level, walk)
    ensures SafeTarget(unit, game) == SourceTarget(unit, game)
    ensures GetActionSafe(unit, game, walk) == GetAction(unit, game, walk)
  {
    NearestWeaponSafeAgrees(unit.position, game.lootBoxes);
  }
}

=== FILE: world.dfy ===
/** The read-only tick snapshot the strategy receives and the command it returns. */
module World {
  import opened Optional
  import opened Geometry

  datatype WeaponType = Pistol | AssaultRifle | RocketLauncher

  /** The weapon a unit holds; only its type and loaded rounds matter here. */
  datatype Weapon = Weapon(typ: WeaponType, magazine: int)

  /** A unit on the field. `weapon == None` is the source's `weapon == nullptr`. */
  datatype Unit = Unit(playerId: int, id: int, health: int, position: Vec2, weapon: Option<Weapon>)

  /** What a loot box contains: exactly one item. */
  datatype Item = HealthPack(health: int) | WeaponItem(weaponType: WeaponType) | Mine

  datatype LootBox = LootBox(position: Vec2, item: Item)

  datatype Tile = Empty | Wall | Platform | Ladder | JumpPad

  /** The tile grid, indexed `tiles[x][y]` as in the source. */
  datatype Level = Level(tiles: seq<seq<Tile>>)

  datatype Game = Game(units: seq<Unit>, lootBoxes: seq<LootBox>, level: Level)

  /** The per-tick command. */
  datatype UnitAction = UnitAction(
    velocity: real,
    jump: bool,
    jumpDown: bool,
    aim: Vec2,
    shoot: bool,
    reload: bool,
    swapWeapon: bool,
    plantMine: bool)
}
